=== FILE: README.md ===
# Snake game core in Dafny

A model of the gameplay core of the terminal Snake game in `project1.c`, with proofs
about it. The game has a 40 x 20 board, a snake held in a fixed array of 800 segments,
one piece of food, and a score. Each tick of the main loop runs these operations in order:

1. reads at most one key (a letter, or an arrow-key sequence) from the pending terminal input;
2. steers the snake or ends the game;
3. moves the snake one cell, refusing the move on a wall or on the snake itself, and
   growing, scoring and placing new food when the snake eats;
4. draws the whole screen into one buffer.

The model takes the source's own form:

- `GameState` is a class over an `array<Point>`. `Init`, `PlaceFood`,
  `UpdateDirection`, `Step`, `HandleInput` and `Tick` change its fields and the array in
  place; `SnakeContains` and `Render` only read them. Each is proved against pure value-level rules.
- Module `Rules` gives those rules for the step: `Shifted`, `Grown`, `NextBody`,
  `Collides`, `Eats`, and the food-placement predicate `Placed`.
- Module `Input` covers key steering (`Steer`) and decoding of the pending bytes
  (`DecodePosix`, `DecodeWindows`).
- Module `Screen` defines the frame (`Frame`). `Render` fills a character buffer through
  a moving write position and is proved to produce exactly `Frame`.

Other pieces:

- `rand()` is an oracle: a `Random.Rng` object holding an infinite stream of
  non-negative draws and a counter of the draws used.
- The pending keyboard input is a queue of read results (`seq<int>`). `kbhit`/`getch`
  do not appear.
- `Session.Run` is main's `while (!game_over)` loop, fed one batch of arriving
  keystrokes per tick. It is proved to end.

Modules:

- `Geometry`: board constants, `Point`, `Direction`, steps and wall distance.
- `Random`: `rand_int` and the draw oracle.
- `Rules`: the step and food rules on values, the well-formedness invariant, and scenarios.
- `Input`: `update_direction`'s key rules, `handle_input`'s decoding, key encodings and round trips.
- `Screen`: the frame as a value, decimal text, layout lemmas.
- `Game`: class `GameState` and the buffer writers.
- `Session`: the main loop.

## Behaviour of project1.c worth knowing

- A quit key does not cut the tick short. `update_direction` sets `game_over`, but
  `game_step` and `render_frame` still run in that tick (project1.c:296-298).
  `Game.GameState.Tick` states this.
- The snake's body is not always made of distinct cells. Growth appends a copy of the
  tail, so the last two segments are equal until the next step (project1.c:182).
  `Rules.WellFormed` allows exactly that duplicate. `Rules.ShiftedIsDistinct` shows the
  duplicate is gone after the next move.
- Food is not always off the snake. After 10000 rejected attempts `place_food` keeps the
  next draw unchecked (project1.c:152). `Rules.Placed` says the food is off the snake
  only when the cap was not reached.
- The cell the tail is about to leave counts as a collision (project1.c:175).
  `Rules.TailCellCollides` states this.
- An interrupted POSIX arrow sequence can be misread as another command. Suppose `ESC`
  is read in one tick and `[ A` arrives later. Then `[` is passed on as an ordinary key,
  and `A` is taken as the letter A, which turns left (project1.c:207-216).
  `Input.SplitUpArrowTurnsLeft` states this.
- On Windows, the scan code after a lead byte is read with a blocking `_getch`, without
  checking that input is pending (project1.c:196-197).

## Model

| member | source | states |
|---|---|---|
| Geometry.Opposite | project1.c:158-161 | the reverse heading that update_direction refuses differs from the heading itself |
| Geometry.Advance | project1.c:166-170 | the candidate head is exactly one cell (Manhattan distance 1) from the old head |
| Geometry.ReverseUndoesAdvance | project1.c:158-161 | a step in the opposite heading returns to the start cell, so a reversal would put the head on the neck |
| Geometry.AdvanceNearsWall | project1.c:167-172 | from a cell on the board, one step stays on the board iff the distance to the wall ahead is positive, and the step uses up one unit of that distance |
| Random.RandInt | project1.c:110-113 | for bounds that are C ints whose `max - min + 1` does not overflow, the result lies between the smaller and the larger bound, whichever order they are given in; a draw no larger than the span maps to smaller bound + draw |
| Random.RandIntCoversRange | project1.c:110-113 | every value of the range is produced by some draw, with the bounds in either order |
| Random.Attempt | project1.c:149-150 | every cell a food attempt proposes is on the board |
| Random.Rng.Rand | project1.c:112 | each call hands out the next draw of the stream and advances the counter by one |
| Rules.Collides | project1.c:172-175 | defines the refusal test: the candidate head is off the board or on any current segment, the tail included; `TailCellCollides`, `CollisionFreezes` and `NextBodyNearsWall` state its consequences |
| Rules.Eats | project1.c:180 | defines eating: the step is accepted and the new head is on the food; `NextBodyMoves` and `Game.GameState.Step` use it for growth and score |
| Rules.NextBody | project1.c:166-184 | defines the body after one step: unchanged on a collision, else shifted, and grown by a tail copy when the snake eats; its properties are `NextBodyWellFormed`, `NextBodyMoves`, `CollisionFreezes`, `FoodStaysClear` and `NextBodyNearsWall` |
| Rules.Placed | project1.c:146-155 | defines what place_food leaves after n attempts: 1 to 10001 attempts, the food is the last one's cell, all earlier ones were on the snake, and below the cap the food is off it; `Game.GameState.PlaceFood` ensures it |
| Rules.Shifted | project1.c:177-178 | the length is unchanged, the head is the new cell, and every other segment i holds the old segment i-1 |
| Rules.Grown | project1.c:180-184 | below capacity, the body gains exactly one segment, a copy of its tail, and the rest is unchanged; at capacity nothing changes |
| Rules.RejectedExtend | project1.c:148-153 | one more attempt on the snake extends the run of rejected attempts |
| Rules.RejectedStopsAtFree | project1.c:129-135 | a run of rejected attempts never reaches past an attempt that was off the snake |
| Rules.InitialBodyWellFormed | project1.c:118-123 | the initial snake (12,10),(11,10),(10,10) has three distinct, adjacent, on-board segments |
| Rules.ShiftedIsDistinct | project1.c:175-178 | a well-formed body that moves to a free cell has no repeated cell afterwards |
| Rules.NextBodyWellFormed | project1.c:165-188 | one step keeps the body on the board, linked, with at most the last two segments equal, and within capacity, never shorter |
| Rules.NextBodyMoves | project1.c:166-184 | on an accepted step the head moves one cell in the heading, each segment i > 0 takes old segment i-1, and the length grows by one (a copy of the tail) exactly when the snake eats below capacity |
| Rules.CollisionFreezes | project1.c:172-175 | a refused step leaves the body unchanged and never eats |
| Rules.FoodStaysClear | project1.c:177-180 | food that is off the snake stays off it after a step that does not eat it |
| Rules.NextBodyNearsWall | project1.c:166-174 | a head at the wall ahead is refused; otherwise the step brings it one cell nearer that wall |
| Rules.TailCellCollides | project1.c:175 | moving into the tail's current cell is a collision |
| Rules.FirstMealScenario | project1.c:165-188 | from the start position with food at (13,10), the first step eats and yields four segments with the last two equal |
| Rules.LeftWallScenario | project1.c:169-173 | a head in column 1 moving left collides and the body is unchanged |
| Rules.CurledSnakeScenario | project1.c:175 | a curled snake moving up into its own fourth segment collides |
| Input.KeyDir | project1.c:157-161 | defines the heading each movement key w/s/a/d (either case) asks for, and none for any other code; `Steer` and `QuitKeysDoNotSteer` state its use |
| Input.IsQuitKey | project1.c:162 | defines the quit keys q and Q; `QuitKeysDoNotSteer` and `Game.GameState.UpdateDirection` state their effect |
| Input.Steer | project1.c:157-161 | the new heading is never the reverse of the old one; a movement key takes effect unless it asks for the reverse, which leaves the heading; every other code, -1 included, leaves the heading |
| Input.QuitKeysDoNotSteer | project1.c:157-162 | q/Q never turn the snake, and movement keys are never quit keys |
| Input.SteerIgnoresReversalAndIsIdempotent | project1.c:158-161 | a reversal request is a no-op, and repeating a key changes nothing further |
| Input.CursorKey | project1.c:212-215 | defines the key passed on for the third byte of `ESC [ x`: A/B/C/D give w/s/d/a, anything else none; `EscapeOnlySteers` and `PosixRoundTrip` state its properties |
| Input.ScanKey | project1.c:198-201 | defines the key passed on for a Windows scan code: 72/80/75/77 give w/s/a/d, anything else none; `WindowsRoundTrip` states its properties |
| Input.DecodePosix | project1.c:205-216 | defines POSIX handle_input's consumption of the queue and the key it passes on; its properties are `DecodeConsumesPrefix`, `EscapeOnlySteers`, `PosixRoundTrip` and `SplitUpArrowTurnsLeft` |
| Input.DecodeWindows | project1.c:194-203 | defines Windows handle_input's consumption of the queue, including the wait on a lone lead byte; its properties are `DecodeConsumesPrefix`, `WholeKeystrokesDecode` and `WindowsRoundTrip` |
| Input.DecodeConsumesPrefix | project1.c:192-218 | decoding is idle iff nothing is pending; otherwise it consumes a non-empty prefix of at most 3 bytes (POSIX) or 2 bytes (Windows) and keeps the rest; only a lone Windows lead byte waits |
| Input.WholeKeystrokesAppend | project1.c:194-197 | whole keystrokes arriving behind whole keystrokes leave the queue whole |
| Input.WholeKeystrokesDecode | project1.c:194-197 | decoding a queue of whole keystrokes never waits and leaves a queue of whole keystrokes |
| Input.EscapeOnlySteers | project1.c:207-215 | an ESC sequence passes on no key or one of w/s/a/d, and never quits |
| Input.PosixRoundTrip | project1.c:205-216 | decoding the bytes a terminal sends for a key press consumes exactly that press and yields its key; an arrow steers like its letter |
| Input.WindowsRoundTrip | project1.c:194-203 | decoding a console key press (lead byte and scan code for arrows) consumes exactly that press and yields its key |
| Input.SplitUpArrowTurnsLeft | project1.c:207-216 | an Up arrow whose ESC is read a tick before the rest of the sequence decodes as '[' and then 'A', which turns the snake left |
| Screen.Dashes | project1.c:238 | n dashes: exactly n characters, each '-' |
| Screen.Border | project1.c:237-240 | a border line is LineLen (43) characters long |
| Screen.Cell | project1.c:246-252 | defines a cell's character by priority: food '*', then head 'O', then another segment 'o', else blank; `FrameShowsState` and `Game.GameState.CellChar` state it in the frame and the code |
| Screen.Cells | project1.c:245-254 | the first n cells of a row are exactly n characters; `CellsAt` places each cell |
| Screen.Row | project1.c:244-256 | a board row is exactly LineLen (43) characters: border, 40 cells, border, newline |
| Screen.Rows | project1.c:243-257 | n board rows take exactly LineLen * n characters |
| Screen.Decimal | project1.c:266-267 | the decimal text of a number is non-empty, made of digits, and has no leading zero |
| Screen.DecimalRoundTrip | project1.c:266-267 | reading the decimal text back gives the number |
| Screen.DecimalLength | project1.c:266-267 | a number below 10^k has at most k digits |
| Screen.Status | project1.c:266-267 | defines the status text: score and length in decimal between the fixed words, then the help line; `Int32StatusFits` bounds its length |
| Screen.Int32StatusFits | project1.c:266-268 | for any score a 32-bit int holds and any length up to capacity, the status text fits in the space left after the board |
| Screen.Board | project1.c:232-263 | the board part of a frame is exactly 949 characters |
| Screen.Frame | project1.c:232-268 | defines the whole frame: Board followed by Status; `FrameLayout`, `FrameCellAt` and `FrameShowsState` state its layout and `Game.GameState.Render` ensures it is what is written |
| Screen.CellsAt | project1.c:245-254 | character x-1 of a row's cells is the cell at column x |
| Screen.RowsPrefix | project1.c:243-257 | the first m rows of the board text are a prefix of the first n rows |
| Screen.FrameLayout | project1.c:232-268 | the frame starts with cursor home and the top border, row y occupies characters 46+43(y-1) to 46+43y, and the bottom border and then the status text follow |
| Screen.FrameCellAt | project1.c:243-254 | character 46+43(y-1)+x of the frame is cell (x, y) |
| Screen.FrameShowsState | project1.c:246-252 | the food's cell shows '*'; the head's shows 'O' unless food covers it; every segment's cell shows '*', 'O' or 'o'; a cell holding neither food nor snake is blank |
| Game.GameState.Init | project1.c:117-137 | a fresh array holds the snake (12,10),(11,10),(10,10) facing right, score 0, game not over, and the food is the first attempted cell off the snake |
| Game.GameState.DrawFreeCell | project1.c:128-136 | the uncapped food loop returns the first attempted cell off the snake, after two draws per attempt |
| Game.GameState.SnakeContains | project1.c:139-144 | the answer is true iff the cell is one of the segments in use, from index 1 when the head is ignored |
| Game.GameState.PlaceFood | project1.c:146-155 | the food is the last attempt's cell, all earlier attempts were on the snake, at most 10001 attempts (two draws each) are made, and below the cap the food is off the snake |
| Game.GameState.DrawFoodCell | project1.c:147-153 | the capped loop proposes the last attempt's cell, with every earlier attempt on the snake, at most 10001 attempts of two draws each, and a cell off the snake below the cap |
| Game.GameState.UpdateDirection | project1.c:157-163 | the heading becomes Steer(old heading, key), and the game ends exactly when it had already ended or the key is q/Q |
| Game.GameState.Step | project1.c:165-188 | the body becomes NextBody; the game ends iff it had ended or the candidate head collides; the score rises by one iff the snake eats; without eating the food and the draws are unchanged; after eating the food is Placed; a collision leaves the whole array unchanged |
| Game.GameState.MoveHead | project1.c:177-187 | an accepted step moves the body to NextBody, scores one point and places food exactly when the new head is on the food, and leaves the unused array slots alone |
| Game.GameState.ShiftTowardTail | project1.c:177-178 | the descending copy loop leaves the segments in use equal to Shifted(old body, new head) and the slots past the tail unchanged |
| Game.GameState.GrowTail | project1.c:181-184 | the length rises by one and the new last segment is a copy of the tail |
| Game.GameState.HandleInput | project1.c:192-218 | returns 0 iff nothing is pending, consumes the decoded prefix, steers by the decoded key and ends the game iff that key is q/Q |
| Game.GameState.CellChar | project1.c:246-252 | the character chosen for a cell is Cell: food, then head, then any other segment, else blank |
| Game.GameState.PutRow | project1.c:244-256 | writing a board row appends exactly Row(y) to what the buffer held |
| Game.GameState.PutBoard | project1.c:243-257 | writing the board appends exactly the 20 rows |
| Game.GameState.PutBoardText | project1.c:232-263 | the first 949 characters of the buffer become Board |
| Game.GameState.Render | project1.c:225-273 | the output stays within the 1288-character buffer, its first 949 characters are the board of Frame, and when the status fits the output is exactly Frame of the current state |
| Game.GameState.Shows | project1.c:266-270 | defines when a frame is the current state's Frame: whenever the status fits, which includes every 32-bit score; `Tick` and `Session.Run` ensure it |
| Game.GameState.Tick | project1.c:295-299 | one tick consumes the decoded input, steers, moves the body to NextBody, ends the game on a quit key or a collision, keeps the food and the draws unless the snake eats and otherwise leaves Placed food, and, when the status fits (always for a 32-bit score, `Screen.Int32StatusFits`), draws Frame of the new state |
| Game.PutBorder | project1.c:237-240 | writing a border appends exactly Border |
| Game.PutStatus | project1.c:266-268 | snprintf writes as much of the status as fits before a NUL, and the position advances by the full status length |
| Game.DrawCell | project1.c:130-131 | one attempt takes two draws and proposes Attempt(k) |
| Game.Put | project1.c:234 | one `*p++ = c` appends c to the buffer's prefix |
| Session.Run | project1.c:295-300 | the loop ends with a valid, finished game; it draws no frame iff the game was already over, and, when the status fits (always for a 32-bit score), the last frame drawn is Frame of the final state |

## Left out

- Terminal mode control (`enable_raw_mode`, `disable_raw_mode`, `enable_ansi_windows`) and the cursor show/hide sequences: these are OS calls.
- `kbhit_posix`, `getch_posix`, `_kbhit` and `_getch`: replaced by a queue of pending read results.
- `sleep_ms`, `srand(time(NULL))` and `rand()`: the clock and the libc generator. `rand()` is an oracle stream of non-negative draws.
- The start banner, `getchar`, the game-over text, `malloc`/`fwrite`/`fflush`/`free`, and the skipped frame when `malloc` fails: output plumbing. `Render` returns the characters handed to `fwrite`.
- `snprintf` internals: `%d` is modelled by `Screen.Decimal` on non-negative numbers.
- Game.GameState.Init: requires that the draws eventually propose a cell off the snake. The source's loop has no cap, so otherwise it never returns.
- Game.GameState.PlaceFood: returns its attempt count, which the source keeps local, so the contract can speak of it.
- Game.GameState.Render: when the status does not fit, only the board part of the output is promised. The source would still advance its write position by the full status length, so `fwrite` would read past the end of the 1288-character buffer. `Screen.Int32StatusFits` shows this cannot happen for a 32-bit score.
- Game.GameState.HandleInput: requires that the decoding does not wait. A lone Windows lead byte, for which `_getch` blocks, is excluded.
- Game.GameState.Tick: has the same requirement as HandleInput.
- Session.Run: requires the arriving input to be whole keystrokes on Windows, for the same reason.
- Session.Run: keystrokes arrive in batches, one per tick, and none arrive after the last batch. Timing within a tick is not modelled.
- The score is a `nat`: the wrap-around of a 32-bit `int` score is not modelled.
- The overflow of `max - min + 1` in rand_int (undefined behaviour in C) is excluded by the precondition `RangeFits`; the game only calls rand_int with (1, 40) and (1, 20).
- Coordinates are unbounded integers. The source's values never leave 0..41, so no overflow arises.

=== FILE: game.dfy ===
/** The game state and the operations that change it in place: init_game,
    snake_contains, place_food, update_direction, game_step, handle_input and
    render_frame, each proved against the value-level rules of modules Rules,
    Input and Screen. */
module Game {
  import opened Geometry
  import opened Random
  import opened Rules
  import opened Input
  import opened Screen

  class GameState {
    /** The snake's segments, head at index 0; only the first snakeLen are in use. */
    const snake: array<Point>
    var snakeLen: nat
    var dir: Direction
    var food: Point
    var score: nat
    var gameOver: bool

    ghost predicate Valid()
      reads this, snake
    {
      && snake.Length == MaxSnakeLength
      && 3 <= snakeLen <= MaxSnakeLength
      && WellFormed(snake[..snakeLen])
      && InBounds(food)
      && ScoreTracksLength(snakeLen, score)
    }

    /** The segments in use. */
    ghost function Body(): seq<Point>
      reads this, snake
      requires snakeLen <= snake.Length
    {
      SegmentsFrom(0)
    }

    /** init_game: the three-segment snake facing right, score 0, and food drawn
        until it lands off the snake. The source's loop has no cap, so it ends only
        if the draws ever propose a free cell; that is what the precondition says. */
    constructor Init(rng: Rng)
      requires exists j: nat :: Attempt(rng.draw, rng.calls, j) !in InitialBody
      modifies rng
      ensures Valid() && fresh(snake)
      ensures Body() == InitialBody && dir == Right && score == 0 && !gameOver
      ensures food !in Body()
      ensures exists n: nat :: && rng.calls == old(rng.calls) + 2 * (n + 1)
                               && food == Attempt(rng.draw, old(rng.calls), n)
                               && Rejected(rng.draw, old(rng.calls), n, InitialBody)
    {
      snake := new Point[MaxSnakeLength];
      snakeLen := 3;
      dir := Right;
      score := 0;
      gameOver := false;
      food := Point(1, 1);
      new;
      var sx := BoardWidth / 4;
      var sy := BoardHeight / 2;
      snake[0] := Point(sx + 2, sy);
      snake[1] := Point(sx + 1, sy);
      snake[2] := Point(sx + 0, sy);
      assert Body() == InitialBody;
      InitialBodyWellFormed();

      food := DrawFreeCell(rng);
    }

    /** The food loop of init_game: draw cells until one is off the snake, with no
        cap on the number of attempts. */
    method DrawFreeCell(rng: Rng) returns (cell: Point)
      requires snakeLen <= snake.Length
      requires exists j: nat :: Attempt(rng.draw, rng.calls, j) !in Body()
      modifies rng
      ensures cell !in Body()
      ensures exists n: nat :: && rng.calls == old(rng.calls) + 2 * (n + 1)
                               && cell == Attempt(rng.draw, old(rng.calls), n)
                               && Rejected(rng.draw, old(rng.calls), n, Body())
    {
      ghost var start := rng.calls;
      ghost var draw := rng.draw;
      ghost var body := Body();
      ghost var j: nat :| Attempt(draw, start, j) !in body;
      var fx, fy := 0, 0;
      var attempts: nat := 0;
      var onSnake := true;
      while onSnake
        modifies rng
        invariant rng.calls == start + 2 * attempts
        invariant attempts == 0 ==> onSnake
        invariant attempts > 0 ==> Point(fx, fy) == Attempt(draw, start, attempts - 1)
        invariant attempts > 0 ==> (onSnake <==> Point(fx, fy) in body)
        invariant Rejected(draw, start, if onSnake then attempts else attempts - 1, body)
        invariant onSnake ==> attempts <= j
        decreases if onSnake then j - attempts + 1 else 0
      {
        var cell := DrawCell(rng, start, attempts);
        fx, fy := cell.x, cell.y;
        attempts := attempts + 1;
        onSnake := SnakeContains(fx, fy, false);
        if onSnake {
          RejectedExtend(draw, start, attempts - 1, body);
          RejectedStopsAtFree(draw, start, attempts, body, j);
        }
      }
      cell := Point(fx, fy);
      assert rng.calls == start + 2 * ((attempts - 1) + 1);
    }

    /** The segments in use from index `start` on (none when start is past the end). */
    ghost function SegmentsFrom(start: nat): seq<Point>
      reads this, snake
      requires snakeLen <= snake.Length
    {
      if start <= snakeLen then snake[start..snakeLen] else []
    }

    /** snake_contains: whether (x, y) is one of the segments in use, skipping the
        head when asked to. */
    method SnakeContains(x: int, y: int, ignoreHead: bool) returns (found: bool)
      requires snakeLen <= snake.Length
      ensures found <==> Point(x, y) in SegmentsFrom(if ignoreHead then 1 else 0)
    {
      var start := if ignoreHead then 1 else 0;
      var i := start;
      while i < snakeLen
        invariant start <= i && (i <= snakeLen || i == start)
        invariant forall k :: start <= k < i ==> snake[k] != Point(x, y)
      {
        if snake[i] == Point(x, y) {
          assert SegmentsFrom(start)[i - start] == Point(x, y);
          return true;
        }
        i := i + 1;
      }
      return false;
    }

    /** place_food: draws cells until one is off the snake, giving up after
        MaxAttempts rejected draws and then keeping the next one unchecked. The
        result is the number of attempts made. */
    method PlaceFood(rng: Rng) returns (attempts: nat)
      requires Valid()
      modifies this`food, rng
      ensures Valid()
      ensures rng.calls == old(rng.calls) + 2 * attempts
      ensures Placed(rng.draw, old(rng.calls), attempts, Body(), food)
    {
      var cell;
      cell, attempts := DrawFoodCell(rng);
      food := cell;
    }

    /** The do/while loop of place_food, which only reads the snake. */
    method DrawFoodCell(rng: Rng) returns (cell: Point, attempts: nat)
      requires snakeLen <= snake.Length
      modifies rng
      ensures rng.calls == old(rng.calls) + 2 * attempts
      ensures Placed(rng.draw, old(rng.calls), attempts, Body(), cell)
    {
      ghost var start := rng.calls;
      ghost var draw := rng.draw;
      ghost var body := Body();
      attempts := 0;
      var again := true;
      cell := Point(0, 0);
      while again
        modifies rng
        invariant attempts <= MaxAttempts && rng.calls == start + 2 * attempts
        invariant attempts == 0 ==> again
        invariant attempts > 0 ==> cell == Attempt(draw, start, attempts - 1)
        invariant attempts > 0 ==> (again <==> cell in body)
        invariant Rejected(draw, start, if again then attempts else attempts - 1, body)
        decreases MaxAttempts - attempts + (if again then 1 else 0)
      {
        cell := DrawCell(rng, start, attempts);
        attempts := attempts + 1;
        if attempts > MaxAttempts {
          break;
        }
        again := SnakeContains(cell.x, cell.y, false);
        if again {
          RejectedExtend(draw, start, attempts - 1, body);
        }
      }
    }

    /** update_direction: steer by key `ch`, and end the game on q or Q. */
    method UpdateDirection(ch: int)
      modifies this`dir, this`gameOver
      ensures dir == Steer(old(dir), ch)
      ensures gameOver == (old(gameOver) || IsQuitKey(ch))
    {
      if ch == 'w' as int || ch == 'W' as int {
        if dir != Down { dir := Up; }
      } else if ch == 's' as int || ch == 'S' as int {
        if dir != Up { dir := Down; }
      } else if ch == 'a' as int || ch == 'A' as int {
        if dir != Right { dir := Left; }
      } else if ch == 'd' as int || ch == 'D' as int {
        if dir != Left { dir := Right; }
      } else if ch == 'q' as int || ch == 'Q' as int {
        gameOver := true;
      }
    }

    /** game_step: one tick of movement. A refused step only sets gameOver; a
        free step shifts the segments one place toward the tail in place and puts
        the head in the new cell; eating then grows the snake by a copy of its
        tail (while there is room), scores a point and places new food. The step
        never looks at gameOver. */
    method Step(rng: Rng)
      requires Valid()
      modifies this`snakeLen, this`food, this`score, this`gameOver, snake, rng
      ensures Valid()
      ensures Body() == NextBody(old(Body()), dir, old(food))
      ensures gameOver == (old(gameOver) || Collides(old(Body()), Advance(old(snake[0]), dir)))
      ensures score == old(score) + (if Eats(old(Body()), dir, old(food)) then 1 else 0)
      ensures !Eats(old(Body()), dir, old(food)) ==> food == old(food) && rng.calls == old(rng.calls)
      ensures Eats(old(Body()), dir, old(food)) ==>
                exists n: nat :: rng.calls == old(rng.calls) + 2 * n && Placed(rng.draw, old(rng.calls), n, Body(), food)
      ensures Collides(old(Body()), Advance(old(snake[0]), dir)) ==> snake[..] == old(snake[..])
      ensures forall k :: snakeLen <= k < snake.Length ==> snake[k] == old(snake[k])
    {
      ghost var body := Body();
      ghost var oldFood := food;
      var newHead := snake[0];
      if dir == Up {
        newHead := newHead.(y := newHead.y - 1);
      } else if dir == Down {
        newHead := newHead.(y := newHead.y + 1);
      } else if dir == Left {
        newHead := newHead.(x := newHead.x - 1);
      } else if dir == Right {
        newHead := newHead.(x := newHead.x + 1);
      }
      assert newHead == Advance(body[0], dir);
      if newHead.x < 1 || newHead.x > BoardWidth || newHead.y < 1 || newHead.y > BoardHeight {
        gameOver := true;
        return;
      }
      var hit := SnakeContains(newHead.x, newHead.y, false);
      if hit {
        gameOver := true;
        return;
      }
      MoveHead(rng, newHead);
    }

    /** The part of game_step after a step has been accepted: move, and on reaching
        the food grow, score and place new food. */
    method MoveHead(rng: Rng, newHead: Point)
      requires Valid() && newHead == Advance(snake[0], dir) && !Collides(Body(), newHead)
      modifies this`snakeLen, this`food, this`score, snake, rng
      ensures Valid()
      ensures Body() == NextBody(old(Body()), dir, old(food))
      ensures score == old(score) + (if newHead == old(food) then 1 else 0)
      ensures newHead != old(food) ==> food == old(food) && rng.calls == old(rng.calls)
      ensures newHead == old(food) ==>
                exists n: nat :: rng.calls == old(rng.calls) + 2 * n && Placed(rng.draw, old(rng.calls), n, Body(), food)
      ensures forall k :: snakeLen <= k < snake.Length ==> snake[k] == old(snake[k])
    {
      ghost var body := Body();
      ghost var oldFood := food;
      NextBodyWellFormed(body, dir, oldFood);
      ShiftTowardTail(newHead);
      if snake[0] == food {
        if snakeLen < MaxSnakeLength {
          GrowTail();
        }
        assert Body() == NextBody(body, dir, oldFood);
        score := score + 1;
        ghost var drawsBefore := rng.calls;
        var attempts := PlaceFood(rng);
        assert rng.calls == drawsBefore + 2 * attempts && Placed(rng.draw, drawsBefore, attempts, Body(), food);
      } else {
        assert Body() == NextBody(body, dir, oldFood);
      }
    }

    /** The move of game_step: every segment but the head takes its predecessor's
        cell, walking from the tail toward the head, then the head takes `newHead`. */
    method ShiftTowardTail(newHead: Point)
      requires 1 <= snakeLen <= snake.Length
      modifies snake
      ensures Body() == Shifted(old(Body()), newHead)
      ensures forall k :: snakeLen <= k < snake.Length ==> snake[k] == old(snake[k])
    {
      var i := snakeLen - 1;
      while i > 0
        invariant 0 <= i < snakeLen
        invariant forall k :: 0 <= k <= i ==> snake[k] == old(snake[k])
        invariant forall k :: i < k < snakeLen ==> snake[k] == old(snake[k - 1])
        invariant forall k :: snakeLen <= k < snake.Length ==> snake[k] == old(snake[k])
      {
        snake[i] := snake[i - 1];
        i := i - 1;
      }
      snake[0] := newHead;
    }

    /** The growth of game_step: the slot after the tail gets a copy of the tail
        and the snake becomes one segment longer. */
    method GrowTail()
      requires 1 <= snakeLen < snake.Length
      modifies this`snakeLen, snake
      ensures snakeLen == old(snakeLen) + 1
      ensures Body() == old(Body()) + [old(Body())[old(snakeLen) - 1]]
      ensures forall k :: snakeLen <= k < snake.Length ==> snake[k] == old(snake[k])
    {
      snake[snakeLen] := snake[snakeLen - 1];
      snakeLen := snakeLen + 1;
    }

    /** handle_input: with nothing pending returns 0; otherwise consumes one
        keystroke or escape sequence, passes the key it denotes (if any) to
        update_direction, and returns 1. On Windows the scan code after a lead byte
        is read without polling, so it must already be pending. */
    method HandleInput(platform: Platform, pending: seq<int>) returns (handled: int, rest: seq<int>)
      requires !Decode(platform, pending).Stalled?
      modifies this`dir, this`gameOver
      ensures handled == Handled(Decode(platform, pending))
      ensures rest == RestOf(Decode(platform, pending), pending)
      ensures dir == SteerBy(old(dir), KeyOf(Decode(platform, pending)))
      ensures gameOver == (old(gameOver) || QuitBy(KeyOf(Decode(platform, pending))))
    {
      rest := pending;
      if rest == [] {
        return 0, rest;
      }
      var c := rest[0];
      rest := rest[1..];
      if platform == Windows {
        if c == WinLeadZero || c == WinLeadE0 {
          var c2 := rest[0];
          rest := rest[1..];
          if c2 == ScanUp { UpdateDirection('w' as int); }
          else if c2 == ScanDown { UpdateDirection('s' as int); }
          else if c2 == ScanLeft { UpdateDirection('a' as int); }
          else if c2 == ScanRight { UpdateDirection('d' as int); }
        } else {
          UpdateDirection(c);
        }
        return 1, rest;
      }
      if c == EscByte {
        if rest == [] {
          return 1, rest;
        }
        var c2 := rest[0];
        rest := rest[1..];
        if c2 != CsiByte {
          return 1, rest;
        }
        if rest == [] {
          return 1, rest;
        }
        var c3 := rest[0];
        rest := rest[1..];
        if c3 == 'A' as int { UpdateDirection('w' as int); }
        else if c3 == 'B' as int { UpdateDirection('s' as int); }
        else if c3 == 'C' as int { UpdateDirection('d' as int); }
        else if c3 == 'D' as int { UpdateDirection('a' as int); }
      } else {
        UpdateDirection(c);
      }
      return 1, rest;
    }

    /** The character render_frame picks for cell (x, y): food first, then the
        head, then any other segment, else blank. */
    method CellChar(x: int, y: int) returns (ch: char)
      requires Valid()
      ensures ch == Cell(food, Body(), x, y)
    {
      ch := ' ';
      if food == Point(x, y) {
        ch := '*';
      } else if snake[0] == Point(x, y) {
        ch := 'O';
      } else {
        var isBody := SnakeContains(x, y, true);
        assert SegmentsFrom(1) == Body()[1..];
        if isBody {
          ch := 'o';
        }
      }
    }

    /** Writes board row y: border, the BoardWidth cells, border, newline. */
    method PutRow(buf: array<char>, p: nat, y: int) returns (q: nat)
      requires Valid() && p + 43 <= buf.Length
      modifies buf
      ensures q == p + 43
      ensures buf[..q] == old(buf[..p]) + Row(food, Body(), y)
    {
      ghost var before := buf[..p];
      q := Put(buf, p, '|');
      for x := 1 to BoardWidth + 1
        invariant q == p + x
        invariant buf[..q] == before + ['|'] + Cells(food, Body(), y, x - 1)
      {
        var ch := CellChar(x, y);
        q := Put(buf, q, ch);
      }
      q := Put(buf, q, '|');
      q := Put(buf, q, '\n');
      assert buf[..q] == before + Row(food, Body(), y);
    }

    /** The BoardHeight rows of the board, top to bottom. */
    method PutBoard(buf: array<char>, p: nat) returns (q: nat)
      requires Valid() && p + 43 * BoardHeight <= buf.Length
      modifies buf
      ensures q == p + 43 * BoardHeight
      ensures buf[..q] == old(buf[..p]) + Rows(food, Body(), BoardHeight)
    {
      ghost var before := buf[..p];
      q := p;
      for y := 1 to BoardHeight + 1
        invariant q == p + 43 * (y - 1)
        invariant buf[..q] == before + Rows(food, Body(), y - 1)
      {
        q := PutRow(buf, q, y);
      }
    }

    /** render_frame: fills a fresh buffer of BufSize characters through a moving
        write position and returns what is handed to fwrite. When the status text
        does not fit (never for a 32-bit score), snprintf truncates it but the
        position still advances by the full length, so fwrite would read past the
        end of the buffer; the model returns the buffer as filled. */
    method Render() returns (out: seq<char>)
      requires Valid()
      ensures BoardEnd <= |out| <= BufSize
      ensures out[..BoardEnd] == Frame(food, Body(), score)[..BoardEnd]
      ensures StatusFits(score, snakeLen) ==> out == Frame(food, Body(), score)
    {
      var buf := new char[BufSize];
      var p := PutBoardText(buf);
      var status := Status(score, snakeLen);
      var n;
      p, n := PutStatus(buf, p, status);
      if |status| < BufSize - BoardEnd {
        out := buf[..p];
      } else {
        out := buf[..];
        assert out[..BoardEnd] == buf[..BoardEnd + n][..BoardEnd];
      }
    }

    /** The part of render_frame before the status text. */
    method PutBoardText(buf: array<char>) returns (p: nat)
      requires Valid() && BoardEnd <= buf.Length
      modifies buf
      ensures p == BoardEnd && buf[..p] == Board(food, Body())
    {
      p := 0;
      p := Put(buf, p, 27 as char);
      p := Put(buf, p, '[');
      p := Put(buf, p, 'H');
      assert buf[..p] == CursorHome;
      p := PutBorder(buf, p);
      p := PutBoard(buf, p);
      p := PutBorder(buf, p);
    }

    /** `frame` is the frame of the current state whenever the status text fits,
        which it always does for a score a 32-bit int can hold. */
    ghost predicate Shows(frame: string)
      reads this, snake
      requires 1 <= snakeLen <= snake.Length
    {
      StatusFits(score, snakeLen) || score <= 0x7FFF_FFFF ==> frame == Frame(food, Body(), score)
    }

    /** One pass of main's loop: handle input, step, render. A quit key sets
        gameOver, yet the step and the frame of that tick still happen. */
    method Tick(platform: Platform, rng: Rng, pending: seq<int>) returns (rest: seq<int>, frame: seq<char>)
      requires Valid() && !Decode(platform, pending).Stalled?
      modifies this`dir, this`gameOver, this`snakeLen, this`food, this`score, snake, rng
      ensures Valid()
      ensures rest == RestOf(Decode(platform, pending), pending)
      ensures dir == SteerBy(old(dir), KeyOf(Decode(platform, pending)))
      ensures Body() == NextBody(old(Body()), dir, old(food))
      ensures gameOver == (old(gameOver) || QuitBy(KeyOf(Decode(platform, pending)))
                           || Collides(old(Body()), Advance(old(snake[0]), dir)))
      ensures score == old(score) + (if Eats(old(Body()), dir, old(food)) then 1 else 0)
      ensures !Eats(old(Body()), dir, old(food)) ==> food == old(food) && rng.calls == old(rng.calls)
      ensures Eats(old(Body()), dir, old(food)) ==>
                exists n: nat :: rng.calls == old(rng.calls) + 2 * n && Placed(rng.draw, old(rng.calls), n, Body(), food)
      ensures Shows(frame)
    {
      var handled;
      handled, rest := HandleInput(platform, pending);
      Step(rng);
      frame := Render();
      if score <= 0x7FFF_FFFF {
        Int32StatusFits(score, snakeLen);
      }
    }
  }

  /** The border line render_frame writes above and below the board. */
  method PutBorder(buf: array<char>, p: nat) returns (q: nat)
    requires p + 43 <= buf.Length
    modifies buf
    ensures q == p + 43
    ensures buf[..q] == old(buf[..p]) + Border()
  {
    ghost var before := buf[..p];
    q := Put(buf, p, '+');
    for x := 0 to BoardWidth
      invariant q == p + 1 + x
      invariant buf[..q] == before + ['+'] + Dashes(x)
    {
      q := Put(buf, q, '-');
    }
    q := Put(buf, q, '+');
    q := Put(buf, q, '\n');
  }

  /** snprintf of the status text at position p: as much of it as fits before a
      terminating NUL; the position then advances by the full length, as the
      source does with snprintf's return value. */
  method PutStatus(buf: array<char>, p: nat, status: string) returns (q: nat, written: nat)
    requires p < buf.Length
    modifies buf
    ensures written == (if |status| < buf.Length - p then |status| else buf.Length - p - 1)
    ensures q == p + |status|
    ensures buf[..p + written] == old(buf[..p]) + status[..written]
  {
    ghost var before := buf[..p];
    written := if |status| < buf.Length - p then |status| else buf.Length - p - 1;
    var r := p;
    for k := 0 to written
      invariant r == p + k
      invariant buf[..r] == before + status[..k]
    {
      r := Put(buf, r, status[k]);
    }
    buf[r] := 0 as char;
    assert buf[..r] == before + status[..written];
    q := p + |status|;
  }

  /** One attempt of the food loops: rand_int(1, BoardWidth) for x, then
      rand_int(1, BoardHeight) for y, the k-th attempt since call `start`. */
  method DrawCell(rng: Rng, ghost start: nat, ghost k: nat) returns (cell: Point)
    requires rng.calls == start + 2 * k
    modifies rng
    ensures rng.calls == old(rng.calls) + 2
    ensures cell == Attempt(rng.draw, start, k)
  {
    var r := rng.Rand();
    var x := RandInt(r, 1, BoardWidth);
    r := rng.Rand();
    var y := RandInt(r, 1, BoardHeight);
    cell := Point(x, y);
  }

  /** One `*p++ = c` of render_frame. */
  method Put(buf: array<char>, p: nat, c: char) returns (q: nat)
    requires p < buf.Length
    modifies buf
    ensures q == p + 1
    ensures buf[..q] == old(buf[..p]) + [c]
  {
    buf[p] := c;
    q := p + 1;
  }
}

=== FILE: geometry.dfy ===
/** Board geometry of the snake game: the fixed 40 x 20 board, points on it and
    the four headings the snake can move in. */
module Geometry {

  const BoardWidth: int := 40
  const BoardHeight: int := 20
  /** Capacity of the snake's segment array: one segment per cell. */
  const MaxSnakeLength: int := BoardWidth * BoardHeight

  /** A cell of the board; columns and rows are 1-based, row 1 is the top row. */
  datatype Point = Point(x: int, y: int)

  /** The four headings, in the order of the source's enumeration (0 = Up ... 3 = Left). */
  datatype Direction = Up | Right | Down | Left

  predicate InBounds(p: Point) {
    1 <= p.x <= BoardWidth && 1 <= p.y <= BoardHeight
  }

  function Abs(n: int): nat {
    if n < 0 then -n else n
  }

  function Manhattan(p: Point, q: Point): nat {
    Abs(p.x - q.x) + Abs(p.y - q.y)
  }

  function Opposite(d: Direction): (r: Direction)
    ensures r != d
  {
    match d
    case Up => Down
    case Down => Up
    case Left => Right
    case Right => Left
  }

  /** The cell one step away from `p` in heading `d` (Up decreases the row). */
  function Advance(p: Point, d: Direction): (q: Point)
    ensures Manhattan(p, q) == 1
  {
    match d
    case Up => Point(p.x, p.y - 1)
    case Down => Point(p.x, p.y + 1)
    case Left => Point(p.x - 1, p.y)
    case Right => Point(p.x + 1, p.y)
  }

  /** A step in the opposite heading undoes a step: this is why the input mapper
      refuses exact reversals (the head would run into the neck). */
  lemma ReverseUndoesAdvance(p: Point, d: Direction)
    ensures Advance(Advance(p, d), Opposite(d)) == p
  {
  }

  /** How many more steps in heading `d` stay on the board. */
  function WallDistance(p: Point, d: Direction): int {
    match d
    case Up => p.y - 1
    case Down => BoardHeight - p.y
    case Left => p.x - 1
    case Right => BoardWidth - p.x
  }

  /** Moving one step uses up exactly one unit of the distance to the wall ahead,
      and a point with no distance left leaves the board on its next step. */
  lemma AdvanceNearsWall(p: Point, d: Direction)
    requires InBounds(p)
    ensures WallDistance(p, d) >= 0
    ensures InBounds(Advance(p, d)) <==> WallDistance(p, d) > 0
    ensures InBounds(Advance(p, d)) ==> WallDistance(Advance(p, d), d) == WallDistance(p, d) - 1
  {
  }
}

=== FILE: input.dfy ===
/** The input mapper: update_direction's key rules, and the byte decoding done by
    handle_input on the two platforms. Pending input is a queue of read results:
    a byte 0..255, or -1 for a read that failed after the poll said a byte was ready. */
module Input {
  import opened Geometry

  datatype Option<T> = None | Some(value: T)

  datatype Platform = Posix | Windows

  /** What one call of handle_input does with the pending queue: nothing pending
      (it returns 0), some bytes consumed and possibly one key passed on to
      update_direction (it returns 1), or, on Windows only, a lead byte whose scan
      code is not pending yet, for which `_getch` would wait. */
  datatype Decoded = Idle | Consumed(key: Option<int>, rest: seq<int>) | Stalled

  const EscByte: int := 27
  const CsiByte: int := 91          // '['
  const WinLeadZero: int := 0
  const WinLeadE0: int := 0xE0
  const ScanUp: int := 72
  const ScanDown: int := 80
  const ScanLeft: int := 75
  const ScanRight: int := 77

  /** The heading a movement key asks for: w/s/a/d in either case. */
  function KeyDir(ch: int): Option<Direction> {
    if ch == 'w' as int || ch == 'W' as int then Some(Up)
    else if ch == 's' as int || ch == 'S' as int then Some(Down)
    else if ch == 'a' as int || ch == 'A' as int then Some(Left)
    else if ch == 'd' as int || ch == 'D' as int then Some(Right)
    else None
  }

  predicate IsQuitKey(ch: int) {
    ch == 'q' as int || ch == 'Q' as int
  }

  /** The heading after key `ch`: a movement key takes effect unless it asks for
      the exact reverse of the current heading; every other code leaves it. */
  function Steer(d: Direction, ch: int): (r: Direction)
    ensures r != Opposite(d)
    ensures KeyDir(ch).None? ==> r == d
    ensures KeyDir(ch) == Some(Opposite(d)) ==> r == d
    ensures KeyDir(ch).Some? && KeyDir(ch).value != Opposite(d) ==> r == KeyDir(ch).value
  {
    match KeyDir(ch)
    case None => d
    case Some(k) => if k == Opposite(d) then d else k
  }

  /** Quitting and steering are separate: the quit keys never turn the snake, and
      the movement keys never end the game. */
  lemma QuitKeysDoNotSteer(d: Direction, ch: int)
    ensures IsQuitKey(ch) ==> Steer(d, ch) == d
    ensures KeyDir(ch).Some? ==> !IsQuitKey(ch)
  {
  }

  /** A reversal request is ignored, and asking twice for the same heading is the
      same as asking once. */
  lemma SteerIgnoresReversalAndIsIdempotent(d: Direction, ch: int)
    ensures KeyDir(ch) == Some(Opposite(d)) ==> Steer(d, ch) == d
    ensures Steer(Steer(d, ch), ch) == Steer(d, ch)
  {
  }

  /** The key update_direction receives for the third byte of `ESC [ x`. */
  function CursorKey(c3: int): Option<int> {
    if c3 == 'A' as int then Some('w' as int)
    else if c3 == 'B' as int then Some('s' as int)
    else if c3 == 'C' as int then Some('d' as int)
    else if c3 == 'D' as int then Some('a' as int)
    else None
  }

  /** The key update_direction receives for a Windows extended-key scan code. */
  function ScanKey(c2: int): Option<int> {
    if c2 == ScanUp then Some('w' as int)
    else if c2 == ScanDown then Some('s' as int)
    else if c2 == ScanLeft then Some('a' as int)
    else if c2 == ScanRight then Some('d' as int)
    else None
  }

  /** POSIX handle_input: a non-ESC byte goes to update_direction; ESC must be
      followed by '[' and a cursor letter, each of which is read only if pending;
      a missing or wrong continuation ends the call after what was read. */
  function DecodePosix(pending: seq<int>): Decoded {
    if pending == [] then Idle
    else if pending[0] != EscByte then Consumed(Some(pending[0]), pending[1..])
    else if |pending| == 1 then Consumed(None, [])
    else if pending[1] != CsiByte then Consumed(None, pending[2..])
    else if |pending| == 2 then Consumed(None, [])
    else Consumed(CursorKey(pending[2]), pending[3..])
  }

  /** Windows handle_input: a lead byte 0 or 0xE0 is followed by a scan code, read
      without polling; any other byte goes to update_direction. */
  function DecodeWindows(pending: seq<int>): Decoded {
    if pending == [] then Idle
    else if pending[0] == WinLeadZero || pending[0] == WinLeadE0 then
      (if |pending| == 1 then Stalled else Consumed(ScanKey(pending[1]), pending[2..]))
    else Consumed(Some(pending[0]), pending[1..])
  }

  function Decode(platform: Platform, pending: seq<int>): Decoded {
    match platform
    case Posix => DecodePosix(pending)
    case Windows => DecodeWindows(pending)
  }

  /** The key a decoding passes on, if any. */
  function KeyOf(r: Decoded): Option<int> {
    if r.Consumed? then r.key else None
  }

  /** handle_input's return value. */
  function Handled(r: Decoded): int {
    if r.Idle? then 0 else 1
  }

  /** The queue after decoding. */
  function RestOf(r: Decoded, pending: seq<int>): seq<int> {
    if r.Consumed? then r.rest else pending
  }

  function SteerBy(d: Direction, key: Option<int>): Direction {
    if key.Some? then Steer(d, key.value) else d
  }

  predicate QuitBy(key: Option<int>) {
    key.Some? && IsQuitKey(key.value)
  }

  /** Decoding is non-blocking and atomic: with nothing pending it does nothing;
      otherwise it consumes a non-empty prefix of the queue (at most 3 bytes on
      POSIX, 2 on Windows) and leaves the rest untouched; POSIX never waits. */
  lemma {:induction false} DecodeConsumesPrefix(platform: Platform, pending: seq<int>)
    ensures Decode(platform, pending) == Idle <==> pending == []
    ensures platform == Posix ==> !Decode(platform, pending).Stalled?
    ensures Decode(platform, pending).Stalled? ==>
              platform == Windows && |pending| == 1 && (pending[0] == WinLeadZero || pending[0] == WinLeadE0)
    ensures Decode(platform, pending).Consumed? ==>
              var n := |pending| - |Decode(platform, pending).rest|;
              && 1 <= n <= (if platform == Posix then 3 else 2)
              && Decode(platform, pending).rest == pending[n..]
  {
    var r := Decode(platform, pending);
    if r.Consumed? {
      var n := |pending| - |r.rest|;
      if platform == Posix && pending[0] == EscByte && |pending| > 2 && pending[1] == CsiByte {
        assert r.rest == pending[3..];
      }
    }
  }

  /** A queue made of whole keystrokes: on Windows every lead byte has its scan
      code behind it, as the console delivers an extended key. Any POSIX queue is. */
  predicate WholeKeystrokes(platform: Platform, s: seq<int>)
    decreases |s|
  {
    || platform == Posix
    || s == []
    || (if s[0] == WinLeadZero || s[0] == WinLeadE0
        then |s| >= 2 && WholeKeystrokes(platform, s[2..])
        else WholeKeystrokes(platform, s[1..]))
  }

  /** Keystrokes arriving behind whole keystrokes leave the queue whole. */
  lemma {:induction false} WholeKeystrokesAppend(platform: Platform, a: seq<int>, b: seq<int>)
    requires WholeKeystrokes(platform, a) && WholeKeystrokes(platform, b)
    ensures WholeKeystrokes(platform, a + b)
    decreases |a|
  {
    if platform == Windows && a != [] {
      if a[0] == WinLeadZero || a[0] == WinLeadE0 {
        assert (a + b)[2..] == a[2..] + b;
        WholeKeystrokesAppend(platform, a[2..], b);
      } else {
        assert (a + b)[1..] == a[1..] + b;
        WholeKeystrokesAppend(platform, a[1..], b);
      }
    } else if a == [] {
      assert a + b == b;
    }
  }

  /** handle_input never waits on a queue of whole keystrokes, and what it leaves
      is still whole. */
  lemma WholeKeystrokesDecode(platform: Platform, s: seq<int>)
    requires WholeKeystrokes(platform, s)
    ensures !Decode(platform, s).Stalled?
    ensures WholeKeystrokes(platform, RestOf(Decode(platform, s), s))
  {
  }

  /** An escape sequence never quits the game and never reaches update_direction
      as anything but one of the four movement keys. */
  lemma EscapeOnlySteers(pending: seq<int>)
    requires pending != [] && pending[0] == EscByte
    ensures var key := KeyOf(DecodePosix(pending));
      key.None? || key.value in {'w' as int, 's' as int, 'a' as int, 'd' as int}
    ensures !QuitBy(KeyOf(DecodePosix(pending)))
  {
  }

  /** What a key press puts on the input queue. */
  datatype Press = Arrow(d: Direction) | Byte(c: int)

  function Letter(d: Direction): int {
    match d
    case Up => 'A' as int
    case Down => 'B' as int
    case Right => 'C' as int
    case Left => 'D' as int
  }

  function Scan(d: Direction): int {
    match d
    case Up => ScanUp
    case Down => ScanDown
    case Left => ScanLeft
    case Right => ScanRight
  }

  /** The bytes a VT100-compatible terminal sends: a cursor key is `ESC [ letter`
      (the CUU/CUD/CUF/CUB final bytes of ECMA-48). */
  function EncodePosix(k: Press): seq<int> {
    match k
    case Arrow(d) => [EscByte, CsiByte, Letter(d)]
    case Byte(c) => [c]
  }

  /** The codes the Windows console delivers: an arrow key is a lead byte 0xE0
      followed by its scan code. */
  function EncodeWindows(k: Press): seq<int> {
    match k
    case Arrow(d) => [WinLeadE0, Scan(d)]
    case Byte(c) => [c]
  }

  /** The letter key that stands for an arrow: Up = w, Down = s, Left = a, Right = d. */
  function KeyCode(k: Press): int {
    match k
    case Arrow(d) => (match d case Up => 'w' as int case Down => 's' as int
                             case Left => 'a' as int case Right => 'd' as int)
    case Byte(c) => c
  }

  /** Decoding a complete press, whatever follows it, consumes exactly that press
      and passes on its key; an arrow then steers like its letter key. */
  lemma {:induction false} PosixRoundTrip(k: Press, rest: seq<int>)
    requires k.Byte? ==> k.c != EscByte
    ensures DecodePosix(EncodePosix(k) + rest) == Consumed(Some(KeyCode(k)), rest)
    ensures k.Arrow? ==> KeyDir(KeyCode(k)) == Some(k.d)
  {
    var p := EncodePosix(k) + rest;
    if k.Arrow? {
      assert p[0] == EscByte && p[1] == CsiByte && p[2] == Letter(k.d) && p[3..] == rest;
    } else {
      assert p[0] == k.c && p[1..] == rest;
    }
  }

  lemma {:induction false} WindowsRoundTrip(k: Press, rest: seq<int>)
    requires k.Byte? ==> k.c != WinLeadZero && k.c != WinLeadE0
    ensures DecodeWindows(EncodeWindows(k) + rest) == Consumed(Some(KeyCode(k)), rest)
  {
    var p := EncodeWindows(k) + rest;
    if k.Arrow? {
      assert p[0] == WinLeadE0 && p[1] == Scan(k.d) && p[2..] == rest;
    } else {
      assert p[0] == k.c && p[1..] == rest;
    }
  }

  /** When the Up arrow's ESC byte is read in one tick and the rest arrives later,
      the leftover '[' is ignored and the 'A' is taken as the letter key A, which
      turns the snake left: an interrupted sequence is misread as another command. */
  lemma SplitUpArrowTurnsLeft()
    ensures DecodePosix([EscByte]) == Consumed(None, [])
    ensures DecodePosix([CsiByte, 'A' as int]) == Consumed(Some(CsiByte), ['A' as int])
    ensures DecodePosix(['A' as int]) == Consumed(Some('A' as int), [])
    ensures Steer(Up, CsiByte) == Up && Steer(Up, 'A' as int) == Left
  {
  }
}

=== FILE: random.dfy ===
/** The random source: `rand()` is an oracle (an infinite supply of non-negative
    draws), and `rand_int` maps one draw into a closed range. */
module Random {
  import opened Geometry

  /** The range of a C `int`. */
  predicate Int32(n: int) {
    -0x8000_0000 <= n <= 0x7FFF_FFFF
  }

  /** What rand_int needs of its bounds: both are ints and `max - min + 1` does not
      overflow (an overflow there is undefined behaviour in C). */
  predicate RangeFits(min: int, max: int) {
    Int32(min) && Int32(max) && Abs(max - min) < 0x7FFF_FFFF
  }

  /** rand_int: swaps the bounds if they are given in the wrong order, then maps the
      draw with a remainder. The draw is non-negative and the span positive, so C's
      truncating `%` and Dafny's Euclidean `%` agree here. */
  function RandInt(draw: nat, min: int, max: int): (v: int)
    requires RangeFits(min, max)
    ensures (if min <= max then min else max) <= v <= (if min <= max then max else min)
    ensures draw <= (if min <= max then max - min else min - max) ==>
              v == (if min <= max then min else max) + draw
  {
    var lo := if min > max then max else min;
    var hi := if min > max then min else max;
    draw % (hi - lo + 1) + lo
  }

  /** Every value of the range is produced by some draw. */
  lemma RandIntCoversRange(min: int, max: int, v: int)
    requires RangeFits(min, max) && min <= v <= max
    ensures RandInt((v - min) as nat, min, max) == v
    ensures RandInt((v - min) as nat, max, min) == v
  {
  }

  /** The cell proposed by the k-th food attempt that starts at draw number `start`:
      the column is drawn first, then the row. */
  function Attempt(draw: nat -> nat, start: nat, k: nat): (p: Point)
    ensures InBounds(p)
  {
    Point(RandInt(draw(start + 2 * k), 1, BoardWidth),
          RandInt(draw(start + 2 * k + 1), 1, BoardHeight))
  }

  /** The process-wide generator behind `rand()`: a fixed stream of draws and the
      number of draws taken so far. */
  class Rng {
    const draw: nat -> nat
    var calls: nat

    constructor (draw: nat -> nat)
      ensures this.draw == draw && calls == 0
    {
      this.draw := draw;
      calls := 0;
    }

    /** rand(): hands out the next draw of the stream. */
    method Rand() returns (r: nat)
      modifies this
      ensures calls == old(calls) + 1
      ensures r == draw(old(calls))
    {
      r := draw(calls);
      calls := calls + 1;
    }
  }
}

=== FILE: rules.dfy ===
/** The step engine's rules on values: how one tick moves, grows or freezes the
    snake's body (a sequence of points, head first), and what the food-placement
    loop can leave behind. The class in module Game is proved against these. */
module Rules {
  import opened Geometry
  import opened Random

  /** place_food gives up after this many rejected attempts. */
  const MaxAttempts: int := 10000

  /** init_game's snake: three segments in row BoardHeight / 2, head at column
      BoardWidth / 4 + 2, facing right. */
  const InitialBody: seq<Point> :=
    [Point(BoardWidth / 4 + 2, BoardHeight / 2),
     Point(BoardWidth / 4 + 1, BoardHeight / 2),
     Point(BoardWidth / 4, BoardHeight / 2)]

  ghost predicate Linked(body: seq<Point>, i: int)
    requires 0 < i < |body|
  {
    Manhattan(body[i - 1], body[i]) <= 1
  }

  ghost predicate Distinct(body: seq<Point>) {
    forall i, j :: 0 <= i < j < |body| ==> body[i] != body[j]
  }

  /** What every reachable body satisfies: each segment is on the board, consecutive
      segments touch (or coincide), and no two segments share a cell except, right
      after growth, the last two. */
  ghost predicate WellFormed(body: seq<Point>) {
    && (forall i :: 0 <= i < |body| ==> InBounds(body[i]))
    && (forall i :: 0 < i < |body| ==> Linked(body, i))
    && (forall i, j :: 0 <= i < j < |body| && body[i] == body[j] ==> i == |body| - 2 && j == |body| - 1)
  }

  /** The step is refused when the candidate head leaves the board or lands on any
      current segment, the tail included (it has not moved yet). */
  predicate Collides(body: seq<Point>, head: Point) {
    !InBounds(head) || head in body
  }

  /** Every segment moves into its predecessor's cell and the head into `head`. */
  function Shifted(body: seq<Point>, head: Point): (r: seq<Point>)
    requires |body| >= 1
    ensures |r| == |body| && r[0] == head
    ensures forall i :: 1 <= i < |r| ==> r[i] == body[i - 1]
  {
    [head] + body[..|body| - 1]
  }

  /** Growth appends a copy of the tail, unless the array is already full. */
  function Grown(body: seq<Point>): (r: seq<Point>)
    requires |body| >= 1
    ensures |body| < MaxSnakeLength ==> |r| == |body| + 1 && r[..|body|] == body && r[|body|] == body[|body| - 1]
    ensures |body| >= MaxSnakeLength ==> r == body
  {
    if |body| < MaxSnakeLength then body + [body[|body| - 1]] else body
  }

  predicate Eats(body: seq<Point>, d: Direction, food: Point)
    requires |body| >= 1
  {
    var head := Advance(body[0], d);
    !Collides(body, head) && head == food
  }

  /** The body after one step with heading `d` and food at `food`. */
  function NextBody(body: seq<Point>, d: Direction, food: Point): seq<Point>
    requires |body| >= 1
  {
    var head := Advance(body[0], d);
    if Collides(body, head) then body
    else if head == food then Grown(Shifted(body, head))
    else Shifted(body, head)
  }

  /** The first `n` food attempts starting at draw `start` all landed on `body`. */
  ghost predicate Rejected(draw: nat -> nat, start: nat, n: nat, body: seq<Point>) {
    forall k :: 0 <= k < n ==> Attempt(draw, start, k) in body
  }

  /** One more rejected attempt extends the run of rejections. */
  lemma RejectedExtend(draw: nat -> nat, start: nat, n: nat, body: seq<Point>)
    requires Rejected(draw, start, n, body) && Attempt(draw, start, n) in body
    ensures Rejected(draw, start, n + 1, body)
  {
  }

  /** A run of rejections cannot reach past an attempt that was off the body. */
  lemma RejectedStopsAtFree(draw: nat -> nat, start: nat, n: nat, body: seq<Point>, j: nat)
    requires Rejected(draw, start, n, body) && Attempt(draw, start, j) !in body
    ensures n <= j
  {
  }

  /** What place_food leaves after `n` attempts: the food is the last attempt's cell,
      every earlier attempt was on the snake, and unless the cap was reached the food
      is off the snake. */
  ghost predicate Placed(draw: nat -> nat, start: nat, n: nat, body: seq<Point>, food: Point) {
    && 1 <= n <= MaxAttempts + 1
    && food == Attempt(draw, start, n - 1)
    && Rejected(draw, start, n - 1, body)
    && (n <= MaxAttempts ==> food !in body)
  }

  /** Score and length move together: both start at 3 / 0 and both go up by one per
      meal, except that the length stops at the array's capacity. */
  predicate ScoreTracksLength(len: int, score: int) {
    len - 3 <= score && (len < MaxSnakeLength ==> score == len - 3)
  }

  lemma InitialBodyWellFormed()
    ensures |InitialBody| == 3 && WellFormed(InitialBody) && Distinct(InitialBody)
  {
    assert Linked(InitialBody, 1) && Linked(InitialBody, 2);
  }

  /** A body with at most its last two segments equal loses that duplicate when it
      moves to a free cell: the moved body has no repeated cell. */
  lemma {:induction false} ShiftedIsDistinct(body: seq<Point>, head: Point)
    requires |body| >= 1 && WellFormed(body) && !Collides(body, head)
    ensures Distinct(Shifted(body, head))
  {
    var r := Shifted(body, head);
    forall i, j | 0 <= i < j < |r|
      ensures r[i] != r[j]
    {
      if i == 0 {
        assert r[j] == body[j - 1];
      } else {
        assert r[i] == body[i - 1] && r[j] == body[j - 1];
        assert j - 1 < |body| - 1;
      }
    }
  }

  /** One step keeps a well-formed body well-formed and within the array. */
  lemma {:induction false} NextBodyWellFormed(body: seq<Point>, d: Direction, food: Point)
    requires 1 <= |body| <= MaxSnakeLength && WellFormed(body)
    ensures WellFormed(NextBody(body, d, food))
    ensures |body| <= |NextBody(body, d, food)| <= MaxSnakeLength
  {
    var head := Advance(body[0], d);
    if !Collides(body, head) {
      var s := Shifted(body, head);
      ShiftedIsDistinct(body, head);
      assert WellFormed(s) by {
        forall i | 0 < i < |s| ensures Linked(s, i) {
          if i == 1 {
            assert s[0] == head && s[1] == body[0];
          } else {
            assert Linked(body, i - 1);
          }
        }
      }
      if head == food && |body| < MaxSnakeLength {
        var g := Grown(s);
        assert g == s + [s[|s| - 1]];
        forall i | 0 < i < |g| ensures Linked(g, i) {
          if i < |s| { assert Linked(s, i); }
        }
        forall i, j | 0 <= i < j < |g| && g[i] == g[j]
          ensures i == |g| - 2 && j == |g| - 1
        {
          if j == |s| {
            assert s[i] == s[|s| - 1];
          }
        }
      }
    }
  }

  /** The shape of a non-colliding step: the head moves one cell in heading `d`,
      every other segment takes its predecessor's old cell, and the body grows by
      exactly one (a copy of the moved tail) when it eats and has room. */
  lemma {:induction false} NextBodyMoves(body: seq<Point>, d: Direction, food: Point)
    requires |body| >= 1 && !Collides(body, Advance(body[0], d))
    ensures var r := NextBody(body, d, food);
      && r[0] == Advance(body[0], d)
      && Manhattan(r[0], body[0]) == 1
      && (forall i :: 1 <= i < |body| ==> r[i] == body[i - 1])
      && |r| == |body| + (if Eats(body, d, food) && |body| < MaxSnakeLength then 1 else 0)
      && (Eats(body, d, food) && |body| < MaxSnakeLength ==> r[|body|] == r[|body| - 1])
  {
    var head := Advance(body[0], d);
    var s := Shifted(body, head);
    if head == food && |body| < MaxSnakeLength {
      assert NextBody(body, d, food) == s + [s[|s| - 1]];
    }
  }

  /** A refused step changes nothing. */
  lemma CollisionFreezes(body: seq<Point>, d: Direction, food: Point)
    requires |body| >= 1 && Collides(body, Advance(body[0], d))
    ensures NextBody(body, d, food) == body && !Eats(body, d, food)
  {
  }

  /** Food that is off the snake stays off it when the snake moves without eating. */
  lemma {:induction false} FoodStaysClear(body: seq<Point>, d: Direction, food: Point)
    requires |body| >= 1 && food !in body && !Eats(body, d, food)
    ensures food !in NextBody(body, d, food)
  {
    var head := Advance(body[0], d);
    if !Collides(body, head) {
      var s := Shifted(body, head);
      forall i | 0 <= i < |s| ensures s[i] != food {
        if i > 0 { assert s[i] == body[i - 1]; }
      }
    }
  }

  /** Without a change of heading the head gets one cell closer to the wall ahead on
      every step that is not refused, and a head at the wall is refused. */
  lemma NextBodyNearsWall(body: seq<Point>, d: Direction, food: Point)
    requires |body| >= 1 && InBounds(body[0])
    ensures WallDistance(body[0], d) == 0 ==> Collides(body, Advance(body[0], d))
    ensures !Collides(body, Advance(body[0], d)) ==>
              WallDistance(NextBody(body, d, food)[0], d) == WallDistance(body[0], d) - 1
  {
    AdvanceNearsWall(body[0], d);
  }

  /** Moving into the cell the tail occupies is refused, although the tail would
      have left it during the same step. */
  lemma TailCellCollides(body: seq<Point>, d: Direction)
    requires |body| >= 1 && Advance(body[0], d) == body[|body| - 1]
    ensures Collides(body, Advance(body[0], d))
  {
  }

  /** The start of a game: the snake faces right and the food sits just ahead. */
  lemma FirstMealScenario()
    ensures Eats(InitialBody, Right, Point(13, 10))
    ensures NextBody(InitialBody, Right, Point(13, 10)) ==
              [Point(13, 10), Point(12, 10), Point(11, 10), Point(11, 10)]
  {
  }

  /** A head in the leftmost column that keeps moving left hits the wall. */
  lemma LeftWallScenario(body: seq<Point>)
    requires |body| >= 1 && body[0] == Point(1, 10)
    ensures Collides(body, Advance(body[0], Left)) && NextBody(body, Left, Point(5, 5)) == body
  {
  }

  /** A length-5 snake curled so that moving up runs into its own fourth segment. */
  lemma CurledSnakeScenario()
    ensures Collides([Point(5, 5), Point(6, 5), Point(6, 4), Point(5, 4), Point(4, 4)],
                     Advance(Point(5, 5), Up))
  {
    assert Advance(Point(5, 5), Up) == Point(5, 4);
  }
}

=== FILE: screen.dfy ===
/** The frame render_frame writes, as a value: cursor home, a bordered board of
    BoardHeight rows by BoardWidth cells, and a status line. */
module Screen {
  import opened Geometry

  /** One board line with its two borders and newline. */
  const LineLen: int := BoardWidth + 2 + 1
  /** Board rows, two border rows and two status rows. */
  const Lines: int := BoardHeight + 2 + 2
  /** The frame buffer: every line at full width plus slack for the status text. */
  const BufSize: int := LineLen * Lines + 256
  /** Where the board part of the frame ends and the status text begins. */
  const BoardEnd: int := |CursorHome| + LineLen * (BoardHeight + 2)

  /** Cursor position with no parameters, i.e. home (CUP, section 8.3.21 of ECMA-48). */
  const CursorHome: string := [27 as char, '[', 'H']
  const HelpLine: string := "Controls: W/A/S/D or Arrow keys. Press Q to quit.\n"

  function Dashes(n: nat): (s: string)
    ensures |s| == n && forall i :: 0 <= i < n ==> s[i] == '-'
  {
    if n == 0 then [] else Dashes(n - 1) + ['-']
  }

  function Border(): (s: string)
    ensures |s| == LineLen
  {
    ['+'] + Dashes(BoardWidth) + ['+', '\n']
  }

  /** The character of cell (x, y): food wins over the head, the head over the
      other segments, and a cell with none of them is blank. */
  function Cell(food: Point, body: seq<Point>, x: int, y: int): char
    requires |body| >= 1
  {
    var p := Point(x, y);
    if food == p then '*'
    else if body[0] == p then 'O'
    else if p in body[1..] then 'o'
    else ' '
  }

  /** The first `n` cells of row `y`. */
  function Cells(food: Point, body: seq<Point>, y: int, n: nat): (s: string)
    requires |body| >= 1
    ensures |s| == n
  {
    if n == 0 then [] else Cells(food, body, y, n - 1) + [Cell(food, body, n, y)]
  }

  function Row(food: Point, body: seq<Point>, y: int): (s: string)
    requires |body| >= 1
    ensures |s| == LineLen
  {
    ['|'] + Cells(food, body, y, BoardWidth) + ['|', '\n']
  }

  /** Rows 1 to n of the board. */
  function Rows(food: Point, body: seq<Point>, n: nat): (s: string)
    requires |body| >= 1
    ensures |s| == LineLen * n
  {
    if n == 0 then [] else Rows(food, body, n - 1) + Row(food, body, n)
  }

  function Digit(d: int): char
    requires 0 <= d < 10
  {
    ('0' as int + d) as char
  }

  /** The decimal digits of n, as printf's %d writes a non-negative int. */
  function Decimal(n: nat): (s: string)
    ensures |s| >= 1 && forall i :: 0 <= i < |s| ==> '0' <= s[i] <= '9'
    ensures |s| == 1 || s[0] != '0'
  {
    if n < 10 then [Digit(n)] else Decimal(n / 10) + [Digit(n % 10)]
  }

  /** Reading a string of decimal digits back as a number. */
  function DigitsValue(s: string): nat
    requires forall i :: 0 <= i < |s| ==> '0' <= s[i] <= '9'
  {
    if s == [] then 0 else DigitsValue(s[..|s| - 1]) * 10 + (s[|s| - 1] as int - '0' as int)
  }

  lemma {:induction false} DecimalRoundTrip(n: nat)
    ensures DigitsValue(Decimal(n)) == n
  {
    if n >= 10 {
      DecimalRoundTrip(n / 10);
      var s := Decimal(n);
      assert s[..|s| - 1] == Decimal(n / 10);
    }
  }

  function Pow10(k: nat): nat {
    if k == 0 then 1 else 10 * Pow10(k - 1)
  }

  lemma {:induction false} DecimalLength(n: nat, k: nat)
    requires 1 <= k && n < Pow10(k)
    ensures |Decimal(n)| <= k
  {
    if n >= 10 {
      assert k >= 2;
      DecimalLength(n / 10, k - 1);
    }
  }

  /** The status text: "Score: %d\tLength: %d\n" followed by the help line. */
  function Status(score: nat, len: nat): string {
    "Score: " + Decimal(score) + "\tLength: " + Decimal(len) + "\n" + HelpLine
  }

  /** The status text fits in what is left of the buffer after the board, so
      snprintf writes it whole. */
  predicate StatusFits(score: nat, len: nat) {
    |Status(score, len)| < BufSize - BoardEnd
  }

  /** Any score a 32-bit int can hold, with any length the array allows, fits. */
  lemma {:induction false} Int32StatusFits(score: nat, len: nat)
    requires score <= 0x7FFF_FFFF && len <= MaxSnakeLength
    ensures StatusFits(score, len)
  {
    assert Pow10(10) == 10000000000;
    DecimalLength(score, 10);
    assert Pow10(3) == 1000;
    DecimalLength(len, 3);
  }

  /** Everything of a frame before the status text: cursor home, the top
      border, the board rows and the bottom border. */
  function Board(food: Point, body: seq<Point>): (r: string)
    requires |body| >= 1
    ensures |r| == BoardEnd
  {
    CursorHome + Border() + Rows(food, body, BoardHeight) + Border()
  }

  /** The whole frame for a state with food `food`, segments `body` and `score`. */
  function Frame(food: Point, body: seq<Point>, score: nat): string
    requires |body| >= 1
  {
    Board(food, body) + Status(score, |body|)
  }

  lemma {:induction false} CellsAt(food: Point, body: seq<Point>, y: int, n: nat, x: int)
    requires |body| >= 1 && 1 <= x <= n
    ensures Cells(food, body, y, n)[x - 1] == Cell(food, body, x, y)
  {
    if x < n {
      CellsAt(food, body, y, n - 1, x);
    }
  }

  lemma {:induction false} RowsPrefix(food: Point, body: seq<Point>, m: nat, n: nat)
    requires |body| >= 1 && m <= n
    ensures Rows(food, body, n)[..43 * m] == Rows(food, body, m)
  {
    if m < n {
      RowsPrefix(food, body, m, n - 1);
      assert Rows(food, body, n)[..43 * (n - 1)] == Rows(food, body, n - 1);
    }
  }

  /** Frame layout: the frame is BoardEnd characters of board followed by the
      status text; it starts with cursor home and the top border, each board row y
      occupies the 43 characters starting at 46 + 43 * (y - 1), and the bottom
      border follows the last row. */
  lemma {:induction false} FrameLayout(food: Point, body: seq<Point>, score: nat, y: int)
    requires |body| >= 1 && 1 <= y <= BoardHeight
    ensures var f := Frame(food, body, score);
      && |f| == BoardEnd + |Status(score, |body|)|
      && f[..3] == CursorHome
      && f[3..46] == Border()
      && f[46 + 43 * (y - 1) .. 46 + 43 * y] == Row(food, body, y)
      && f[46 + 43 * BoardHeight .. BoardEnd] == Border()
      && f[BoardEnd..] == Status(score, |body|)
  {
    var rows := Rows(food, body, BoardHeight);
    var f := Frame(food, body, score);
    assert f == CursorHome + Border() + rows + Border() + Status(score, |body|);
    RowsPrefix(food, body, y, BoardHeight);
    RowsPrefix(food, body, y - 1, y);
    assert rows[43 * (y - 1) .. 43 * y] == Row(food, body, y);
    assert f[46 + 43 * (y - 1) .. 46 + 43 * y] == rows[43 * (y - 1) .. 43 * y];
  }

  /** Cell (x, y) of the board is character 46 + 43 * (y - 1) + x of the frame. */
  lemma {:induction false} FrameCellAt(food: Point, body: seq<Point>, score: nat, x: int, y: int)
    requires |body| >= 1 && 1 <= x <= BoardWidth && 1 <= y <= BoardHeight
    ensures Frame(food, body, score)[46 + 43 * (y - 1) + x] == Cell(food, body, x, y)
  {
    FrameLayout(food, body, score, y);
    var f := Frame(food, body, score);
    var row := Row(food, body, y);
    assert f[46 + 43 * (y - 1) + x] == row[x];
    CellsAt(food, body, y, BoardWidth, x);
  }

  /** The food is always drawn at its cell, and so is the head unless the food
      covers it; every other segment shows as a body character or under the head
      or food, and a cell holding none of them is blank. */
  lemma {:induction false} FrameShowsState(food: Point, body: seq<Point>, score: nat, p: Point)
    requires |body| >= 1 && InBounds(p)
    ensures var c := Frame(food, body, score)[46 + 43 * (p.y - 1) + p.x];
      && (p == food ==> c == '*')
      && (p == body[0] && p != food ==> c == 'O')
      && (p in body ==> c in {'*', 'O', 'o'})
      && (p != food && p !in body ==> c == ' ')
  {
    FrameCellAt(food, body, score, p.x, p.y);
    if p in body && p != food && p != body[0] {
      var i :| 0 <= i < |body| && body[i] == p;
      assert body[1..][i - 1] == p;
    }
  }
}

=== FILE: session.dfy ===
/** main's game loop: while the game is not over, handle input, step and render.
    The keystrokes that reach the terminal while the loop sleeps are given as one
    batch per tick; after the last batch no more keys arrive. */
module Session {
  import opened Geometry
  import opened Random
  import opened Rules
  import opened Input
  import opened Screen
  import opened Game

  /** Runs ticks until the game is over and returns the frames drawn, one per tick.
      Once the keystrokes run out the snake keeps its heading, so it reaches a wall
      or itself: the loop always ends. */
  method Run(platform: Platform, g: GameState, rng: Rng, arrivals: seq<seq<int>>)
    returns (frames: seq<string>)
    requires g.Valid()
    requires forall k :: 0 <= k < |arrivals| ==> WholeKeystrokes(platform, arrivals[k])
    modifies g, g.snake, rng
    ensures g.Valid() && g.gameOver
    ensures |frames| == 0 <==> old(g.gameOver)
    ensures frames != [] ==> g.Shows(frames[|frames| - 1])
  {
    var pending: seq<int> := [];
    var k := 0;
    frames := [];
    while !g.gameOver
      invariant g.Valid() && 0 <= k
      invariant WholeKeystrokes(platform, pending)
      invariant frames == [] ==> g.gameOver == old(g.gameOver)
      invariant frames != [] ==> !old(g.gameOver)
      invariant frames != [] ==> g.Shows(frames[|frames| - 1])
      decreases (if k < |arrivals| then |arrivals| - k else 0), |pending|,
                (if g.gameOver then 0 else WallDistance(g.snake[0], g.dir) + 1)
    {
      AdvanceNearsWall(g.snake[0], g.dir);
      if k < |arrivals| {
        WholeKeystrokesAppend(platform, pending, arrivals[k]);
        pending := pending + arrivals[k];
      }
      k := k + 1;
      WholeKeystrokesDecode(platform, pending);
      DecodeConsumesPrefix(platform, pending);
      ghost var body := g.Body();
      ghost var food := g.food;
      var frame;
      pending, frame := g.Tick(platform, rng, pending);
      frames := frames + [frame];
      NextBodyNearsWall(body, g.dir, food);
      assert g.snake[0] == g.Body()[0];
    }
  }
}
